=== FILE: README.md ===
# Bot registry and login orchestration of the potato QQ bot

This project models the part of the bot that logs QQ accounts in and keeps
track of the logged-in bots (common/tools/bot.ts), together with the small
helpers from common/tools/system.ts that it depends on: picking a config
file, laying a server section over it, and the missing-argument check for
command-line options.

- `BotEntries` models the registry's array of `{ nickName, client }`
  entries as a sequence. It covers the online view (`getOnlineBots`), the
  lookups by nickname and by uin, `getBot`, the account guard of
  `getAllQQAccount`, and the duplicate-checking merge that `setBot`
  performs. Each merge result is specified against a reference definition,
  and lemmas prove the properties of the merge.
- `BotLogin` models `login`.
  - The three challenge handlers (slider, QR code, device) are traces of
    prompts and client calls.
  - The method `Login` is the loop over the accounts. Besides the entries,
    it returns the schedule of handler runs and failure logs.
  - Lemmas show that the schedule reads the operator's typed lines exactly
    once each, in order, and that only rejected logins are logged: in the
    schedule, and in the effects the schedule expands to, since no handler
    logs a failure.
- `BotRegistry` holds the process-wide `bot` object as a class. Its `bots`
  field is updated in place by `SetBot` and replaced by `RemoveOfflineBots`.
- `System` models the name split of `getFileDirents`, the file choice and
  section overlay of `getConfig`, and `getCmdArg`.
- `Numerals` holds the decimal text of a QQ number. `Outcomes` holds the
  error values that stand for the source's thrown errors.

The client is reduced to its uin and whether it is online. The uin is,
in this model, `parseFloat(account.id)` read on the leading run of
decimal digits, and NaN when the id does not start with a digit; NaN equals nothing under `===`. The online flag is the value
`isOnline()` had once the login promise settled. It is an input of its own,
apart from whether that promise resolved, which only decides the failure
log. The operator's terminal is a function from line number to typed line.

Behaviours of the code that the model keeps:

- A login that is rejected is logged, but its bot is still pushed to the
  array that `login` returns (named `onlineBots` there and `liveBots` in
  `setBot`), online or not (common/tools/bot.ts:34, 80-84, 119).
- In the device challenge, the branch for any choice other than "1" waits
  for a second line while the operator scans the code, so a device
  challenge always reads two lines (common/tools/bot.ts:64-77).
- The duplicate check of `setBot` only looks at *online* bots. An offline
  bot can therefore be pushed again by every later `setBot`
  (`BotEntries.MergeRepeatsOfflineBot`).
- The duplicate check calls `getOnlineBots`, which throws on an empty array.
  So the first `setBot` on an empty registry always fails, and the registry
  never leaves the empty state (`BotRegistry.EmptyRegistryStaysEmpty`).

## Model

| member | source | states |
|---|---|---|
| BotEntries.ParseUin | common/tools/bot.ts:80 | the uin is NaN exactly when the id is empty or does not start with a digit |
| BotEntries.SameUin | common/tools/bot.ts:123 | `===` on uins: equal uins that are numbers are the same, and NaN is the same as nothing, not even NaN |
| BotEntries.UinText | common/tools/bot.ts:100 | `uin.toString()` is non-empty and reads back as the same uin |
| BotEntries.UinOfCanonicalId | common/tools/bot.ts:80 | an id that is the decimal text of n, with n no larger than `Number.MAX_SAFE_INTEGER`, logs in as uin n, and `uin.toString()` gives the id back |
| BotEntries.OnlineOf | common/tools/bot.ts:140 | the filtered array holds exactly the online entries of the array and is no longer than it |
| BotEntries.OnlineOfIsSubsequence | common/tools/bot.ts:140 | the online view keeps the registry's order |
| BotEntries.OnlineOfAppend | common/tools/bot.ts:140 | the online view of a concatenation is the concatenation of the online views |
| BotEntries.OnlineBots | common/tools/bot.ts:136-141 | `getOnlineBots` throws "not initialized" exactly when the array is empty; otherwise it returns the online entries in order |
| BotEntries.Matches | common/tools/bot.ts:93-100 | a nickname key matches exactly the entries with that nickname; a uin key that matches reads back as the entry's uin, and a NaN uin matches only the text "NaN" |
| BotEntries.Find | common/tools/bot.ts:93 | `find` gives nothing exactly when no element matches, otherwise the first matching element: it sits at a position with no match before it |
| BotEntries.FirstOnlineMatchIndex | common/tools/bot.ts:92-101 | reference definition: the index of the first online entry matching the key, with no earlier online match |
| BotEntries.FindOnlineIsFirstOnlineMatch | common/tools/bot.ts:92-101 | `find` over the online view returns the first online matching entry of the whole registry |
| BotEntries.Lookup | common/tools/bot.ts:92-101 | throws exactly on an empty registry; otherwise the first online entry of the whole registry that matches the key, or none |
| BotEntries.GetBotByNickName | common/tools/bot.ts:92-94 | throws exactly on an empty registry; otherwise the first online bot with that nickname, or none |
| BotEntries.GetBotByUin | common/tools/bot.ts:99-101 | throws exactly on an empty registry; otherwise the first online bot whose uin text equals the argument, or none |
| BotEntries.GetBot | common/tools/bot.ts:158-164 | throws "not initialized" on an empty array, throws "no online bot" exactly when no entry is online, otherwise returns an online entry of the array |
| BotEntries.FirstOnlineIndex | common/tools/bot.ts:158-164 | reference definition: the position of the first online entry, with no online entry before it, and none exactly when no entry is online |
| BotEntries.OnlineOfStartsAtFirstOnline | common/tools/bot.ts:140-141 | the online view is non-empty exactly when some entry is online, and it starts with the first online entry |
| BotEntries.GetBotIsFirstOnline | common/tools/bot.ts:158-164 | on a non-empty array `getBot` succeeds exactly when some entry is online, and returns the first online entry |
| BotEntries.GetBotAgreesWithNickNameLookup | common/tools/bot.ts:92-94 | looking up `getBot()`'s nickname finds `getBot()` itself |
| BotEntries.GetAllQQAccount | common/tools/bot.ts:106-112 | throws exactly when the store gives nothing or an empty list; otherwise returns that list |
| BotEntries.Clash | common/tools/bot.ts:122-124 | two bots clash when they share a nickname or a uin that is a number; a clash implies a shared nickname or uin, and a newcomer with a NaN uin clashes only by nickname |
| BotEntries.Clashing | common/tools/bot.ts:121-125 | the filter keeps exactly the online bots with the same uin (`===`) or the same nickname |
| BotEntries.CoveredIffClashing | common/tools/bot.ts:121-126 | the filter is non-empty exactly when some online entry clashes with the new bot |
| BotEntries.MergeOne | common/tools/bot.ts:120-130 | one forEach step throws on an empty array, leaves the array alone when an online entry clashes, and otherwise appends the new bot |
| BotEntries.Merge | common/tools/bot.ts:120-130 | the forEach throws exactly when the array is empty and there is a bot to merge; otherwise the old array is a prefix of the result |
| BotEntries.MergeAppendsInOrder | common/tools/bot.ts:120-130 | what the merge appends is a subsequence of the logged-in bots, in login order |
| BotEntries.MergeCoversOnline | common/tools/bot.ts:120-130 | after the merge, every online logged-in bot clashes with some online entry |
| BotEntries.MergeOfCoveredIsNoOp | common/tools/bot.ts:120-130 | merging bots that all clash with online entries changes nothing |
| BotEntries.MergeIdempotentForOnline | common/tools/bot.ts:117-131 | running `setBot`'s merge twice with the same online bots adds nothing the second time |
| BotEntries.MergeRepeatsOfflineBot | common/tools/bot.ts:121-129 | for any non-empty array and any offline bot that no online entry clashes with, merging that bot twice appends it twice, so offline duplicates accumulate |
| BotEntries.MergeKeepsOnlineDistinct | common/tools/bot.ts:120-130 | if no two online entries share a uin or a nickname, the merge keeps it so |
| BotLogin.Handle | common/tools/bot.ts:53-79 | a handler run is two to four effects, starts by asking the operator a question that names the account and gets the next typed line, and ends with a call that lets the login go on |
| BotLogin.HandleReadsInOrder | common/tools/bot.ts:53-79 | each handler reads the next operator lines in order: one for slider and QR code, two for a device challenge |
| BotLogin.HandlerProtocol | common/tools/bot.ts:53-79 | prompts name the account and come first; a ticket or SMS code sent to the client is the line typed at the prompt just before; each handler ends with exactly one call that lets the login go on; the slider asks for the ticket with the URL and submits the typed line; the QR code asks for a scan and resumes the login; a device challenge sends and asks for an SMS code exactly when "1" is chosen, then submits the code; any other choice asks for a scan with the URL and resumes the login; no handler logs a failure, and an SMS code is sent only on a device challenge answered "1" |
| BotLogin.ConsecutiveReadsInOrder | common/tools/bot.ts:52-79 | a schedule whose handlers each start at the line where the one before stopped reads the typed lines in order |
| BotLogin.EventStepsConsecutive | common/tools/bot.ts:52-79 | the handlers of one login's challenges start one after another, from the line where that login started |
| BotLogin.EventStepsShape | common/tools/bot.ts:52-79 | one handler run per challenge, in the order the challenges arrive, all for that account, the first from the line where the login started |
| BotLogin.AccountSteps | common/tools/bot.ts:52-83 | one account's part of the run is its handler runs, one per challenge and in their order, all for that account, followed by one failure log exactly when its login promise rejects |
| BotLogin.LoginSteps | common/tools/bot.ts:39-85 | the run over the first i accounts has one handler run per challenge those logins raise and one failure log per rejected login |
| BotLogin.LoginStepsConsecutive | common/tools/bot.ts:39-85 | across the accounts, each login's handlers start where the previous login's stopped, from line 0 on |
| BotLogin.LoginReadsInOrder | common/tools/bot.ts:39-85 | a whole login run reads every typed line exactly once, in typing order, across all accounts: one per slider or QR-code challenge and two per device challenge |
| BotLogin.AccountStepsLog | common/tools/bot.ts:80-83 | one account's login logs its id exactly when its login promise rejects, and nothing otherwise |
| BotLogin.EventStepsLogNothing | common/tools/bot.ts:52-79 | the handler runs scheduled for an account's challenges add no failure entry to the schedule |
| BotLogin.LoginLogsRejected | common/tools/bot.ts:80-83 | the run logs a failure for exactly the rejected logins, once each, in account order |
| BotLogin.LoggedIdsAppend | common/tools/bot.ts:80-83 | the failure logs of two effect runs one after the other are those of the first, then those of the second |
| BotLogin.ExpandLogsFailures | common/tools/bot.ts:52-83 | the failure logs in the effects of any schedule are exactly the schedule's failure entries, in order: handler runs log nothing |
| BotLogin.LoginEffectsLogRejected | common/tools/bot.ts:49-86 | the effects of a whole login run log a failure for exactly the rejected logins, once each, in account order |
| BotLogin.LoggedInBots | common/tools/bot.ts:84 | one entry per account, in order, with the account's nickname and a client whose uin is parsed from the id and whose online flag is the one the client had once its login settled |
| BotLogin.FindBotConfig | common/model/config.ts:29-41 | the settings row for the server name; a missing or empty name looks up the row whose server is null; no row gives nothing |
| BotLogin.LoginSettingsAsWritten | common/tools/bot.ts:35-38 | reading the server name with `getCmdArg("--server")` throws on every command line, because that option has no parser, so the settings lookup is never reached |
| BotLogin.LoginSettings | common/tools/bot.ts:35-38 | with the server name read as an optional string, the lookup fails, with "settings missing", exactly when no settings row is found, and otherwise gives that row |
| BotLogin.LoginSettingsDefaultRow | common/model/config.ts:29-41 | read as an optional string, a missing or empty server name finds the null-server row when there is one, and a given name succeeds exactly when its row exists |
| BotLogin.SettingsAsWrittenRejectDefault | common/tools/bot.ts:35-38 | the lookup as written throws on every command line; read as an optional string, a command line without "--server" finds the default row when it exists, and one naming a server finds that server's row when it exists |
| BotLogin.Login | common/tools/bot.ts:31-87 | throws when no settings row is found; otherwise returns the entries of all accounts, rejected logins included, together with the run's schedule of handlers and failure logs |
| BotLogin.LoggedInAccountMatchesItsId | common/tools/bot.ts:80-84 | a bot logged in from a canonical numeric id no larger than `Number.MAX_SAFE_INTEGER` is found by `getBotByUin` with that id |
| BotRegistry.Registry.constructor | common/tools/bot.ts:12-26 | the registry starts with no bots |
| BotRegistry.Registry.SetBot | common/tools/bot.ts:117-131 | fails without touching the array when there are no accounts or no settings row; otherwise logs every account in and leaves the array as the merge specifies, throwing (and keeping it) when the array was empty. As written, `setBot` rejects on every command line once accounts exist, because its settings lookup throws (see Findings); the method uses the corrected lookup |
| BotRegistry.Registry.RemoveOfflineBots | common/tools/bot.ts:151-153 | throws on an empty array and keeps it; otherwise keeps exactly the online bots, in order |
| BotRegistry.PruneIsIdempotent | common/tools/bot.ts:151-153 | after pruning every bot is online and a second prune changes nothing; the result is empty exactly when no bot was online |
| BotRegistry.EmptyRegistryStaysEmpty | common/tools/bot.ts:120-125 | merging into an empty array throws as soon as there is a bot to merge, so an empty registry stays empty |
| Numerals.NatToString | common/tools/bot.ts:100 | `toString()` of an integer below 10^21 is a non-empty run of digits without a leading zero |
| Numerals.LeadingDigits | common/tools/bot.ts:80 | the longest prefix of digits that `parseFloat` reads |
| Numerals.NatToStringRoundTrip | common/tools/bot.ts:80-100 | reading the decimal text of n gives n |
| Numerals.NatToStringInjective | common/tools/bot.ts:100 | different numbers have different texts |
| System.Split | common/tools/system.ts:43 | `split(".")` gives at least one part and no part holds a dot |
| System.Join | common/tools/system.ts:47 | `join` starts with the first part; with more than one part the separator follows it; a single part is returned as it is |
| System.JoinSplit | common/tools/system.ts:43-47 | joining the parts with the separator gives the string back |
| System.SplitSinglePart | common/tools/system.ts:43-47 | the split has one part exactly when the name has no dot |
| System.SplitName | common/tools/system.ts:43-47 | `fileName` is a dot-free prefix of the name; with a dot, `fileName + "." + fileType` is the name; without one, `fileName` is the name and `fileType` is empty |
| System.SplitNameCutsAtFirstDot | common/tools/system.ts:43-47 | the name is cut at its first dot |
| System.GetFileDirents | common/tools/system.ts:38-52 | nothing when the listing fails; otherwise one entry per directory entry, with its split name |
| System.Names | common/tools/system.ts:64 | the file names of the entries, one per entry, in order |
| System.IndexOf | common/tools/system.ts:68 | reference definition: the first position of a name |
| System.Named | common/tools/system.ts:68 | the filter keeps exactly the entries with that file name and is no longer than the listing |
| System.NamedHeadIsFirst | common/tools/system.ts:68 | the first element of the filter is the first entry with that file name |
| System.SelectConfigFile | common/tools/system.ts:61-71 | nothing exactly when the listing failed or no entry has that file name; otherwise the first entry with it |
| System.SpreadOf | common/tools/system.ts:80 | `{...v}` copies an object's fields, an array's or string's index keys "0", "1", …, and nothing for null, booleans and numbers |
| System.Indexed | common/tools/system.ts:80 | an array spread has one key per element, the element's index in decimal |
| System.IndexKeysCount | common/tools/system.ts:80 | there are exactly n index keys below n |
| System.SectionName | common/tools/system.ts:76-86 | the section is "dev" when `--server` is missing or empty, otherwise `--server` |
| System.Overlay | common/tools/system.ts:76-86 | the result's keys are the config's and the section's own keys (an object's fields, an array's or string's indices); the section's keys take its values and all other keys keep the config's; an absent section or one with no own keys leaves the config as it is |
| System.PathOf | common/tools/system.ts:72 | the import path is the entry's folder, a slash, then its name |
| System.GetConfig | common/tools/system.ts:59-87 | undefined exactly when the listing failed or has no entry with that file name; otherwise the first such entry is imported from its folder and name, a path that cannot be imported fails with that path, and the result is the config with its section laid over it |
| System.GetCmdArg | common/tools/system.ts:111-130 | for the five database options it throws, naming the option and its parser, exactly when the option is missing, and otherwise returns its value; any other option throws on every command line, because it has no parser |
| System.ServerArg | common/tools/system.ts:76-77 | the `--server` option read with the string parser: present exactly when the command line gives it, with its text |

## Left out

- The icqq client is reduced to its uin and an online flag. `createClient` options, the data directory, the reconnect interval, the sign server and the ffmpeg check are not part of this model. Nor is the wire login itself: the challenges a login raises and whether it is accepted are inputs.
- The online flag is the one the client had once its login promise settled. Later disconnects and reconnects are not modelled, so `isOnline()` is read as a fixed flag.
- The asynchronous interleaving of handlers with the pending `client.login` is not modelled. A run is the sequence of handler runs per account, in the order the challenges arrive.
- `BotEntries.ParseUin`: reads only a leading run of ASCII digits. Leading whitespace, signs, decimals, exponents and "Infinity", which `parseFloat` also accepts, are not modelled.
- `BotEntries.ParseUin`: the uin is an exact natural number, not a double. Above `Number.MAX_SAFE_INTEGER` (2^53 - 1) `parseFloat` rounds, so two long ids can get the same uin and an id no longer reads back from its uin. The lemmas about canonical ids require n ≤ `Number.MAX_SAFE_INTEGER`. QQ numbers have far fewer digits than that bound.
- `BotEntries.SameUin`: compares exact naturals, so it does not model two ids above 2^53 that round to the same double and count as duplicates under `===`.
- `Numerals.NatToString`: writes every natural in plain digits. From 10^21 on, `toString()` uses exponent form ("1e+21"); uins never get that large.
- The database is an input. The settings table is a map from the server column to the row, and `qqAccountFindAll`'s result is given directly. Connecting, querying and the row's other columns are not part of this model.
- `BotLogin.Login`: looks up the settings with the server name read as an optional string (`BotLogin.LoginSettings`). The source reads it with `getCmdArg("--server")`, which throws on every command line, so the login loop is never reached as written. That behaviour is modelled by `BotLogin.LoginSettingsAsWritten` and recorded under Findings.
- `setEventListener` and `init` only register a no-op listener and schedule `setBot`; they are not modelled.
- The `logger` sink is modelled only as the failure entries of the login schedule.
- `getCmdArgs` (the argument parser) is not part of this model. Its parsed options are an input to `System.GetCmdArg`, and its own errors on unknown or malformed options are not modelled.
- `System.GetConfig`: the JSON import is a map from path to the parsed file. An import that fails yields `ImportFailed`, which stands for the rejected promise. A file whose default export is not an object is not modelled.
- `System.SpreadOf`: strings are split into characters rather than UTF-16 code units.
- `getPath`, `isFolderExist`, `parseJson`, `formatDate` and `getCMDInput`'s terminal handling are not part of this model. Operator input is a function from line number to typed line.

## Findings

| source | as written | input that shows it | evidently intended | confidence | as-written member | corrected member |
|---|---|---|---|---|---|---|
| common/tools/bot.ts:35 | `login` reads the server name with `getCmdArg("--server")`, but `getCmdArg` has no parser for "--server" (common/tools/system.ts:114-123). The argument parser is then given a spec entry with no parser and refuses it. Were it to accept it, a missing option would make the error message read `.name` of that absent parser and throw a TypeError, and a present one would have nothing to convert it. Either way `login` rejects before it looks up the settings | any command line, including one without `--server`, which `getConfig` (common/tools/system.ts:77-81) treats as the normal "dev" case, with a settings row whose server is null | read `--server` as an optional string, as `getConfig` does, and let `botConfigFindOne` turn a missing name into the null-server row (common/model/config.ts:35) | high, not executed | `BotLogin.LoginSettingsAsWritten`, `BotLogin.SettingsAsWrittenRejectDefault` | `BotLogin.LoginSettings`, `BotLogin.LoginSettingsDefaultRow` |

=== FILE: bot_entries.dfy ===
/** The entries of the bot registry (`IBot` in common/tools/bot.ts) and the
    pure operations over the registry's array: the online view, the lookups,
    the first online bot, the account guard and the duplicate-checking merge. */
module BotEntries {
  import opened Outcomes
  import opened Numerals

  /** A QQ number as the client holds it: the number read from the leading
      digits of the account id, or NaN when the id does not start with a
      digit. */
  datatype Uin = Number(n: nat) | NaN

  /** JavaScript strict equality on two uins: NaN equals nothing, not even
      itself, and two numbers are equal when their values are. */
  predicate SameUin(a: Uin, b: Uin): (r: bool)
    ensures r ==> a == b
    ensures a.NaN? || b.NaN? ==> !r
    ensures a.Number? && a == b ==> r
  {
    a.Number? && b.Number? && a.n == b.n
  }

  /** The uin converted to a string; the text reads back as the same uin. */
  function UinText(u: Uin): (r: string)
    ensures |r| > 0
    ensures ParseUin(r) == u
  {
    match u
    case Number(n) => NatToStringRoundTrip(n); NatToString(n)
    case NaN => "NaN"
  }

  /** `parseFloat(id)` for ids made of a leading run of decimal digits. */
  function ParseUin(id: string): (u: Uin)
    ensures u.NaN? <==> id == [] || !IsDigit(id[0])
  {
    var ds := LeadingDigits(id);
    if ds == [] then NaN else Number(DigitsValue(ds))
  }

  /** An account whose id is the canonical decimal text of a number that a
      double holds exactly logs in under that number, and converting the uin
      to a string gives the id back. */
  lemma UinOfCanonicalId(n: nat)
    requires n <= MaxSafeInteger
    ensures ParseUin(NatToString(n)) == Number(n)
    ensures UinText(ParseUin(NatToString(n))) == NatToString(n)
  {
    NatToStringRoundTrip(n);
  }

  /** The icqq client, reduced to what the registry looks at: its uin and
      whether `isOnline()` holds. */
  datatype Client = Client(uin: Uin, online: bool)

  /** `IBot`. */
  datatype Entry = Entry(nickName: string, client: Client)

  /** `IQQAccount`. */
  datatype Account = Account(id: string, nickName: string, password: string)

  predicate IsOnline(e: Entry) {
    e.client.online
  }

  /** `a` is `b` with some elements left out and the rest kept in order. */
  ghost predicate IsSubsequence<T>(a: seq<T>, b: seq<T>)
    decreases |b|
  {
    if a == [] then true
    else if b == [] then false
    else (a[0] == b[0] && IsSubsequence(a[1..], b[1..])) || IsSubsequence(a, b[1..])
  }

  /** The online view: the entries whose client is online, in registry
      order. */
  function OnlineOf(bots: seq<Entry>): (r: seq<Entry>)
    ensures |r| <= |bots|
    ensures forall e :: e in r <==> e in bots && IsOnline(e)
  {
    if bots == [] then []
    else (if IsOnline(bots[0]) then [bots[0]] else []) + OnlineOf(bots[1..])
  }

  lemma {:induction false} OnlineOfIsSubsequence(bots: seq<Entry>)
    ensures IsSubsequence(OnlineOf(bots), bots)
  {
    if bots != [] {
      OnlineOfIsSubsequence(bots[1..]);
      var rest := OnlineOf(bots[1..]);
      if IsOnline(bots[0]) {
        assert OnlineOf(bots) == [bots[0]] + rest;
        assert OnlineOf(bots)[1..] == rest;
      } else {
        assert OnlineOf(bots) == rest;
        if rest != [] {
          assert IsSubsequence(rest, bots[1..]);
        }
      }
    }
  }

  /** The filter distributes over concatenation: it keeps the order of the
      entries it keeps. */
  lemma {:induction false} OnlineOfAppend(s: seq<Entry>, t: seq<Entry>)
    ensures OnlineOf(s + t) == OnlineOf(s) + OnlineOf(t)
  {
    if s != [] {
      assert (s + t)[1..] == s[1..] + t;
      OnlineOfAppend(s[1..], t);
    } else {
      assert s + t == t;
    }
  }

  /** Filtering a registry that is all online leaves it as it is. */
  lemma {:induction false} OnlineOfAllOnline(s: seq<Entry>)
    requires forall e :: e in s ==> IsOnline(e)
    ensures OnlineOf(s) == s
  {
    if s != [] {
      assert s[0] in s;
      OnlineOfAllOnline(s[1..]);
      assert [s[0]] + s[1..] == s;
    }
  }

  /** `getOnlineBots`: throws on an empty registry, otherwise the online
      entries in their registry order. */
  function OnlineBots(bots: seq<Entry>): (r: Result<seq<Entry>>)
    ensures r.Err? <==> bots == []
    ensures r.Err? ==> r.error == NotInitialized
    ensures r.Ok? ==> IsSubsequence(r.value, bots)
    ensures r.Ok? ==> forall e :: e in r.value <==> e in bots && IsOnline(e)
  {
    if bots == [] then Err(NotInitialized)
    else OnlineOfIsSubsequence(bots); Ok(OnlineOf(bots))
  }

  /** What a lookup compares: the nickname, or the uin as a string. */
  datatype Key = ByNickName(name: string) | ByUin(text: string)

  /** The comparison of a lookup: by nickname, or by the uin's text; a uin
      text that matches reads back as the entry's uin. */
  predicate Matches(e: Entry, key: Key): (r: bool)
    ensures key.ByNickName? ==> (r <==> e.nickName == key.name)
    ensures key.ByUin? && r ==> ParseUin(key.text) == e.client.uin
    ensures key.ByUin? && e.client.uin.NaN? ==> (r <==> key.text == "NaN")
  {
    match key
    case ByNickName(name) => e.nickName == name
    case ByUin(text) => UinText(e.client.uin) == text
  }

  /** `Array.prototype.find` with a key comparison: the first matching
      element. */
  function Find(s: seq<Entry>, key: Key): (r: Option<Entry>)
    ensures r.None? <==> forall e :: e in s ==> !Matches(e, key)
    ensures r.Some? ==> r.value in s && Matches(r.value, key)
    ensures r.Some? ==> exists i :: 0 <= i < |s| && s[i] == r.value && forall j :: 0 <= j < i ==> !Matches(s[j], key)
  {
    if s == [] then None
    else if Matches(s[0], key) then Some(s[0])
    else
      var r := Find(s[1..], key);
      if r.None? then r
      else
        var i :| 0 <= i < |s[1..]| && s[1..][i] == r.value && forall j :: 0 <= j < i ==> !Matches(s[1..][j], key);
        assert s[i + 1] == r.value;
        assert forall j :: 0 <= j < i + 1 ==> !Matches(s[j], key) by {
          forall j | 0 <= j < i + 1 ensures !Matches(s[j], key) {
            if j > 0 { assert s[j] == s[1..][j - 1]; }
          }
        }
        r
  }

  /** Reference scan over the whole registry: the position of the first entry
      that is online and matches the key. */
  function FirstOnlineMatchIndex(bots: seq<Entry>, key: Key): (r: Option<nat>)
    ensures r.Some? ==> r.value < |bots| && IsOnline(bots[r.value]) && Matches(bots[r.value], key)
    ensures r.Some? ==> forall j :: 0 <= j < r.value ==> !(IsOnline(bots[j]) && Matches(bots[j], key))
    ensures r.None? <==> forall j :: 0 <= j < |bots| ==> !(IsOnline(bots[j]) && Matches(bots[j], key))
  {
    if bots == [] then None
    else if IsOnline(bots[0]) && Matches(bots[0], key) then Some(0)
    else
      var rest := bots[1..];
      assert forall j :: 0 < j < |bots| ==> bots[j] == rest[j - 1];
      match FirstOnlineMatchIndex(rest, key)
      case None => None
      case Some(i) => Some(i + 1)
  }

  function FirstOnlineMatch(bots: seq<Entry>, key: Key): Option<Entry> {
    match FirstOnlineMatchIndex(bots, key)
    case None => None
    case Some(i) => Some(bots[i])
  }

  /** Searching the online view finds the same entry as scanning the whole
      registry for the first online match. */
  lemma {:induction false} FindOnlineIsFirstOnlineMatch(bots: seq<Entry>, key: Key)
    ensures Find(OnlineOf(bots), key) == FirstOnlineMatch(bots, key)
  {
    if bots != [] {
      FindOnlineIsFirstOnlineMatch(bots[1..], key);
      if IsOnline(bots[0]) {
        assert OnlineOf(bots) == [bots[0]] + OnlineOf(bots[1..]);
        assert OnlineOf(bots)[1..] == OnlineOf(bots[1..]);
      } else {
        assert OnlineOf(bots) == OnlineOf(bots[1..]);
      }
      if !(IsOnline(bots[0]) && Matches(bots[0], key)) {
        match FirstOnlineMatchIndex(bots[1..], key)
        case None =>
        case Some(i) => assert bots[1..][i] == bots[i + 1];
      }
    }
  }

  function Lookup(bots: seq<Entry>, key: Key): (r: Result<Option<Entry>>)
    ensures r.Err? <==> bots == []
    ensures r.Err? ==> r.error == NotInitialized
    ensures r.Ok? ==> r.value == FirstOnlineMatch(bots, key)
  {
    match OnlineBots(bots)
    case Err(e) => Err(e)
    case Ok(online) => FindOnlineIsFirstOnlineMatch(bots, key); Ok(Find(online, key))
  }

  /** `getBotByNickName`: the first online entry with that nickname. */
  function GetBotByNickName(bots: seq<Entry>, nickName: string): (r: Result<Option<Entry>>)
    ensures r.Err? <==> bots == []
    ensures r.Err? ==> r.error == NotInitialized
    ensures r.Ok? ==> r.value == FirstOnlineMatch(bots, ByNickName(nickName))
  {
    Lookup(bots, ByNickName(nickName))
  }

  /** `getBotByUin`: the first online entry whose uin prints as `uin`. */
  function GetBotByUin(bots: seq<Entry>, uin: string): (r: Result<Option<Entry>>)
    ensures r.Err? <==> bots == []
    ensures r.Err? ==> r.error == NotInitialized
    ensures r.Ok? ==> r.value == FirstOnlineMatch(bots, ByUin(uin))
  {
    Lookup(bots, ByUin(uin))
  }

  /** `getBot`: the first online entry; a registry with no online entry
      throws, an empty one with the not-initialized error. */
  function GetBot(bots: seq<Entry>): (r: Result<Entry>)
    ensures bots == [] ==> r == Err(NotInitialized)
    ensures bots != [] ==> (r.Err? <==> forall e :: e in bots ==> !IsOnline(e))
    ensures bots != [] && r.Err? ==> r.error == NoOnlineBot
    ensures r.Ok? ==> r.value in bots && IsOnline(r.value)
  {
    match OnlineBots(bots)
    case Err(e) => Err(e)
    case Ok(online) =>
      if |online| == 0 then Err(NoOnlineBot)
      else assert online[0] in online; Ok(online[0])
  }

  /** Reference scan: the position of the first online entry. */
  function FirstOnlineIndex(bots: seq<Entry>): (r: Option<nat>)
    ensures r.Some? ==> r.value < |bots| && IsOnline(bots[r.value])
    ensures r.Some? ==> forall j :: 0 <= j < r.value ==> !IsOnline(bots[j])
    ensures r.None? <==> forall j :: 0 <= j < |bots| ==> !IsOnline(bots[j])
  {
    if bots == [] then None
    else if IsOnline(bots[0]) then Some(0)
    else match FirstOnlineIndex(bots[1..])
      case None => None
      case Some(i) => Some(i + 1)
  }

  /** The online view starts with the first online entry of the registry. */
  lemma {:induction false} OnlineOfStartsAtFirstOnline(bots: seq<Entry>)
    ensures FirstOnlineIndex(bots).Some? <==> OnlineOf(bots) != []
    ensures FirstOnlineIndex(bots).Some? ==> OnlineOf(bots)[0] == bots[FirstOnlineIndex(bots).value]
  {
    if bots != [] && !IsOnline(bots[0]) {
      OnlineOfStartsAtFirstOnline(bots[1..]);
      assert OnlineOf(bots) == OnlineOf(bots[1..]);
      match FirstOnlineIndex(bots[1..])
      case None =>
      case Some(i) => assert bots[1..][i] == bots[i + 1];
    }
  }

  /** `getBot` returns the registry's first online entry, and succeeds exactly
      when there is one. */
  lemma GetBotIsFirstOnline(bots: seq<Entry>)
    requires bots != []
    ensures GetBot(bots).Ok? <==> FirstOnlineIndex(bots).Some?
    ensures GetBot(bots).Ok? ==> GetBot(bots).value == bots[FirstOnlineIndex(bots).value]
  {
    OnlineOfStartsAtFirstOnline(bots);
  }

  /** The first online bot is also what a lookup by its own nickname finds. */
  lemma GetBotAgreesWithNickNameLookup(bots: seq<Entry>)
    requires GetBot(bots).Ok?
    ensures GetBotByNickName(bots, GetBot(bots).value.nickName) == Ok(Some(GetBot(bots).value))
  {
    var e := GetBot(bots).value;
    FindOnlineIsFirstOnlineMatch(bots, ByNickName(e.nickName));
    assert OnlineOf(bots)[0] == e;
  }

  /** `getAllQQAccount`: a missing or empty account list throws, otherwise
      it is returned unchanged. */
  function GetAllQQAccount(found: Option<seq<Account>>): (r: Result<seq<Account>>)
    ensures r.Err? <==> found.None? || found.value == []
    ensures r.Err? ==> r.error == NoQQAccount
    ensures r.Ok? ==> found == Some(r.value)
  {
    if found.None? || |found.value| == 0 then Err(NoQQAccount) else Ok(found.value)
  }

  /** The duplicate test of `setBot`: same uin under strict equality, or
      same nickname. A bot whose uin is NaN clashes only by nickname. */
  predicate Clash(oldBot: Entry, newBot: Entry): (r: bool)
    ensures r ==> oldBot.client.uin == newBot.client.uin || oldBot.nickName == newBot.nickName
    ensures oldBot.nickName == newBot.nickName ==> r
    ensures oldBot.client.uin.Number? && oldBot.client.uin == newBot.client.uin ==> r
    ensures newBot.client.uin.NaN? ==> (r <==> oldBot.nickName == newBot.nickName)
  {
    SameUin(oldBot.client.uin, newBot.client.uin) || oldBot.nickName == newBot.nickName
  }

  /** The online bots that clash with the newcomer, in order. */
  function Clashing(online: seq<Entry>, newBot: Entry): (r: seq<Entry>)
    ensures forall e :: e in r <==> e in online && Clash(e, newBot)
  {
    if online == [] then []
    else (if Clash(online[0], newBot) then [online[0]] else []) + Clashing(online[1..], newBot)
  }

  /** Some online entry of `bots` clashes with `newBot`. */
  ghost predicate Covered(bots: seq<Entry>, newBot: Entry) {
    exists e :: e in bots && IsOnline(e) && Clash(e, newBot)
  }

  /** The filtered duplicate list is non-empty exactly when the newcomer is
      covered by an online entry. */
  lemma CoveredIffClashing(bots: seq<Entry>, newBot: Entry)
    ensures Covered(bots, newBot) <==> |Clashing(OnlineOf(bots), newBot)| > 0
  {
    if Covered(bots, newBot) {
      var e :| e in bots && IsOnline(e) && Clash(e, newBot);
      assert e in Clashing(OnlineOf(bots), newBot);
    }
    if |Clashing(OnlineOf(bots), newBot)| > 0 {
      assert Clashing(OnlineOf(bots), newBot)[0] in Clashing(OnlineOf(bots), newBot);
    }
  }

  /** One step of the `forEach` in `setBot`: appends `newBot` exactly when no
      online entry clashes with it; the duplicate check itself throws on an
      empty registry. */
  function MergeOne(bots: seq<Entry>, newBot: Entry): (r: Result<seq<Entry>>)
    ensures r.Err? <==> bots == []
    ensures r.Err? ==> r.error == NotInitialized
    ensures r.Ok? && Covered(bots, newBot) ==> r.value == bots
    ensures r.Ok? && !Covered(bots, newBot) ==> r.value == bots + [newBot]
  {
    match OnlineBots(bots)
    case Err(e) => Err(e)
    case Ok(online) =>
      CoveredIffClashing(bots, newBot);
      if |Clashing(online, newBot)| > 0 then Ok(bots) else Ok(bots + [newBot])
  }

  /** The whole `forEach` of `setBot`: stops at the first throw. */
  function Merge(bots: seq<Entry>, liveBots: seq<Entry>): (r: Result<seq<Entry>>)
    ensures r.Err? <==> bots == [] && liveBots != []
    ensures r.Err? ==> r.error == NotInitialized
    ensures r.Ok? ==> bots <= r.value
    decreases |liveBots|
  {
    if liveBots == [] then Ok(bots)
    else match MergeOne(bots, liveBots[0])
      case Err(e) => Err(e)
      case Ok(next) => Merge(next, liveBots[1..])
  }

  /** A merge only appends, and what it appends is taken from `liveBots` in
      their order. */
  lemma {:induction false} MergeAppendsInOrder(bots: seq<Entry>, liveBots: seq<Entry>)
    requires Merge(bots, liveBots).Ok?
    ensures IsSubsequence(Merge(bots, liveBots).value[|bots|..], liveBots)
    decreases |liveBots|
  {
    var r := Merge(bots, liveBots).value;
    if liveBots == [] {
      assert r[|bots|..] == [];
    } else {
      var next := MergeOne(bots, liveBots[0]).value;
      assert r == Merge(next, liveBots[1..]).value;
      MergeAppendsInOrder(next, liveBots[1..]);
      var tail := r[|bots|..];
      if Covered(bots, liveBots[0]) {
        if tail != [] {
          assert IsSubsequence(tail, liveBots[1..]);
        }
      } else {
        assert next == bots + [liveBots[0]];
        assert next <= r;
        assert tail[0] == liveBots[0];
        assert tail[1..] == r[|next|..];
      }
    }
  }

  /** Every online entry of `liveBots` is matched by an online entry of the
      registry after the merge (itself, or the entry that made it a duplicate). */
  lemma {:induction false} MergeCoversOnline(bots: seq<Entry>, liveBots: seq<Entry>)
    requires Merge(bots, liveBots).Ok?
    ensures forall e :: e in liveBots && IsOnline(e) ==> Covered(Merge(bots, liveBots).value, e)
    decreases |liveBots|
  {
    if liveBots != [] {
      var r := Merge(bots, liveBots).value;
      var l := liveBots[0];
      var next := MergeOne(bots, l).value;
      MergeCoversOnline(next, liveBots[1..]);
      assert next <= r;
      if IsOnline(l) {
        if Covered(bots, l) {
          var w :| w in bots && IsOnline(w) && Clash(w, l);
          assert w in r;
        } else {
          assert next[|bots|] == l;
          assert l in r && Clash(l, l);
        }
      }
      forall e | e in liveBots && IsOnline(e)
        ensures Covered(r, e)
      {
        if e != l {
          assert e in liveBots[1..];
        }
      }
    }
  }

  /** Merging entries that all clash with online registry entries changes
      nothing. */
  lemma {:induction false} MergeOfCoveredIsNoOp(bots: seq<Entry>, liveBots: seq<Entry>)
    requires bots != []
    requires forall e :: e in liveBots ==> Covered(bots, e)
    ensures Merge(bots, liveBots) == Ok(bots)
    decreases |liveBots|
  {
    if liveBots != [] {
      assert liveBots[0] in liveBots;
      forall e | e in liveBots[1..] ensures Covered(bots, e) {
        assert e in liveBots;
      }
      MergeOfCoveredIsNoOp(bots, liveBots[1..]);
    }
  }

  /** Merging the same online bots a second time adds nothing. */
  lemma MergeIdempotentForOnline(bots: seq<Entry>, liveBots: seq<Entry>)
    requires bots != []
    requires forall e :: e in liveBots ==> IsOnline(e)
    ensures Merge(bots, liveBots).Ok?
    ensures Merge(Merge(bots, liveBots).value, liveBots) == Merge(bots, liveBots)
  {
    MergeCoversOnline(bots, liveBots);
    MergeOfCoveredIsNoOp(Merge(bots, liveBots).value, liveBots);
  }

  /** An offline bot is never a duplicate of itself: when no online entry
      clashes with it, merging it twice appends it twice. */
  lemma MergeRepeatsOfflineBot(bots: seq<Entry>, e: Entry)
    requires bots != [] && !IsOnline(e) && !Covered(bots, e)
    ensures Merge(bots, [e, e]) == Ok(bots + [e, e])
  {
    assert MergeOne(bots, e) == Ok(bots + [e]);
    forall x | x in bots + [e] && IsOnline(x)
      ensures !Clash(x, e)
    {
      assert x in bots;
    }
    assert !Covered(bots + [e], e);
    assert MergeOne(bots + [e], e) == Ok(bots + [e] + [e]);
    assert [e, e][1..] == [e];
    assert Merge(bots + [e], [e]) == Merge(bots + [e] + [e], []);
    assert Merge(bots, [e, e]) == Merge(bots + [e], [e]);
    assert bots + [e] + [e] == bots + [e, e];
  }

  /** No two online entries share a uin or a nickname. */
  ghost predicate OnlineDistinct(bots: seq<Entry>) {
    forall i, j :: 0 <= i < j < |bots| && IsOnline(bots[i]) && IsOnline(bots[j]) ==> !Clash(bots[i], bots[j])
  }

  /** The merge keeps online entries free of duplicates. */
  lemma {:induction false} MergeKeepsOnlineDistinct(bots: seq<Entry>, liveBots: seq<Entry>)
    requires OnlineDistinct(bots)
    requires Merge(bots, liveBots).Ok?
    ensures OnlineDistinct(Merge(bots, liveBots).value)
    decreases |liveBots|
  {
    if liveBots != [] {
      var l := liveBots[0];
      var next := MergeOne(bots, l).value;
      if !Covered(bots, l) {
        forall i, j | 0 <= i < j < |next| && IsOnline(next[i]) && IsOnline(next[j])
          ensures !Clash(next[i], next[j])
        {
          if j == |bots| {
            assert next[i] in bots;
          }
        }
      }
      MergeKeepsOnlineDistinct(next, liveBots[1..]);
    }
  }
}

=== FILE: bot_login.dfy ===
/** `login` of common/tools/bot.ts: one icqq client per account, created in
    account order, with the slider, QR-code and device challenge handlers
    that ask the operator on the command line. */
module BotLogin {
  import opened Outcomes
  import opened Numerals
  import opened BotEntries
  import System

  /** The login challenges the client emits while `client.login` is pending. */
  datatype Event =
    | SliderEvent(url: string)     // "system.login.slider"
    | QrCodeEvent                  // "system.login.qrcode"
    | DeviceEvent(url: string)     // "system.login.device"

  /** The prompts the handlers print; each names the account id. */
  datatype Prompt =
    | SliderTicketPrompt(id: string, url: string)
    | QrCodeScannedPrompt(id: string)
    | VerifyMethodPrompt(id: string)
    | SmsCodePrompt(id: string)
    | DeviceQrScannedPrompt(id: string, url: string)

  /** The calls the handlers make on the client. */
  datatype ClientCall = SubmitSlider(ticket: string) | ResumeLogin | SendSmsCode | SubmitSmsCode(code: string)
  {
    /** The calls that let the pending login go on. */
    predicate Resumes() {
      !SendSmsCode?
    }

    /** The calls that pass an operator's answer to the client. */
    predicate Carries() {
      SubmitSlider? || SubmitSmsCode?
    }

    function Payload(): string
      requires Carries()
    {
      if SubmitSlider? then ticket else code
    }
  }

  /** One observable effect of a login run: a prompt with the line the
      operator typed, a call on the client, or the error log of a failed
      login. */
  datatype Io = Ask(prompt: Prompt, reply: string) | Call(call: ClientCall) | LogLoginFailure(id: string)

  /** One step of the schedule of a login run: the handler for `ev` ran for
      account `id`, reading operator lines from `line` on; or the login of
      account `id` was rejected and logged. */
  datatype Step = RunHandler(id: string, ev: Event, line: nat) | LoginFailed(id: string)

  /** The bot settings row; its fields only configure the client. */
  datatype BotConfig = BotConfig(logLevel: string, signServer: string)

  /** `botConfigFindOne`: the settings row whose server column holds the
      given name; a missing or empty name looks for the row whose server is
      null (the key `None`). A failed query finds nothing. */
  function FindBotConfig(server: Option<string>, table: map<Option<string>, BotConfig>): (r: Option<BotConfig>)
    ensures server.Some? && server.value != "" ==> (r.Some? <==> server in table)
    ensures server.Some? && server.value != "" && r.Some? ==> r.value == table[server]
    ensures server.None? || server.value == "" ==> (r.Some? <==> None in table)
    ensures (server.None? || server.value == "") && r.Some? ==> r.value == table[None]
  {
    var column := if server.None? || server.value == "" then None else server;
    if column in table then Some(table[column]) else None
  }

  /** The settings lookup at the start of `login` as written: the server
      name is read with `getCmdArg`, which has no parser for "--server", so
      it throws on every command line and the lookup is never reached. */
  function LoginSettingsAsWritten(parsed: map<string, System.ArgValue>, table: map<Option<string>, BotConfig>): (r: Result<BotConfig>)
    ensures r == Err(NoArgParser("--server"))
  {
    match System.GetCmdArg("--server", parsed)
    case Err(e) => Err(e)
    case Ok(_) => assert false; LoginSettings(System.ServerArg(parsed), table)
  }

  /** The settings lookup of `login` with the server name read as an
      optional string, as `getConfig` reads it: fails only when no settings
      row is found. */
  function LoginSettings(server: Option<string>, table: map<Option<string>, BotConfig>): (r: Result<BotConfig>)
    ensures r.Err? <==> FindBotConfig(server, table).None?
    ensures r.Err? ==> r.error == BotConfigMissing
    ensures r.Ok? ==> r.value == FindBotConfig(server, table).value
  {
    match FindBotConfig(server, table)
    case None => Err(BotConfigMissing)
    case Some(config) => Ok(config)
  }

  /** Read as an optional string, a missing or empty server name finds the
      settings row whose server is null, and a given name finds its own row. */
  lemma LoginSettingsDefaultRow(name: string, table: map<Option<string>, BotConfig>)
    ensures None in table ==> LoginSettings(None, table) == Ok(table[None]) && LoginSettings(Some(""), table) == Ok(table[None])
    ensures name != "" ==> (LoginSettings(Some(name), table).Ok? <==> Some(name) in table)
  {
  }

  /** The lookup as written throws on every command line, even one without
      "--server" whose default settings row exists; read as an optional
      string, that command line finds the row, and one naming a server
      finds that server's row whenever it exists. */
  lemma SettingsAsWrittenRejectDefault(parsed: map<string, System.ArgValue>, table: map<Option<string>, BotConfig>)
    ensures LoginSettingsAsWritten(parsed, table) == Err(NoArgParser("--server"))
    ensures "--server" !in parsed && None in table ==> LoginSettings(System.ServerArg(parsed), table) == Ok(table[None])
    ensures var server := System.ServerArg(parsed);
      server.Some? && server.value != "" && server in table ==> LoginSettings(server, table) == Ok(table[server])
  {
  }

  /** What the protocol client does during one account's `client.login`: the
      challenges it emits, in order, whether the login promise resolves, and
      whether `isOnline()` holds once it has settled. */
  datatype Attempt = Attempt(events: seq<Event>, accepted: bool, online: bool)

  /** The operator's answers in a trace, in order. */
  function Replies(t: seq<Io>): (r: seq<string>)
    ensures |r| <= |t|
  {
    if t == [] then []
    else (if t[0].Ask? then [t[0].reply] else []) + Replies(t[1..])
  }

  lemma {:induction false} RepliesAppend(a: seq<Io>, b: seq<Io>)
    ensures Replies(a + b) == Replies(a) + Replies(b)
  {
    if a != [] {
      assert (a + b)[1..] == a[1..] + b;
      RepliesAppend(a[1..], b);
    } else {
      assert a + b == b;
    }
  }

  /** `n` consecutive lines typed by the operator, starting with line `k`. */
  function Lines(answer: nat -> string, k: nat, n: nat): (r: seq<string>)
    ensures |r| == n
    decreases n
  {
    if n == 0 then [] else [answer(k)] + Lines(answer, k + 1, n - 1)
  }

  lemma {:induction false} LinesSplit(answer: nat -> string, k: nat, n: nat, m: nat)
    ensures Lines(answer, k, n + m) == Lines(answer, k, n) + Lines(answer, k + n, m)
    decreases n
  {
    if n > 0 {
      LinesSplit(answer, k + 1, n - 1, m);
    }
  }

  /** The handler registered for `ev`, run with the operator's lines from
      line `k` on. */
  function Handle(id: string, ev: Event, answer: nat -> string, k: nat): (r: seq<Io>)
    ensures 2 <= |r| <= 4
    ensures r[0].Ask? && r[0].reply == answer(k) && r[0].prompt.id == id
    ensures r[|r| - 1].Call? && r[|r| - 1].call.Resumes()
  {
    match ev
    case SliderEvent(url) =>
      var ticket := answer(k);
      [Ask(SliderTicketPrompt(id, url), ticket), Call(SubmitSlider(ticket))]
    case QrCodeEvent =>
      [Ask(QrCodeScannedPrompt(id), answer(k)), Call(ResumeLogin)]
    case DeviceEvent(url) =>
      var tip := answer(k);
      if tip == "1" then
        var smsCode := answer(k + 1);
        [Ask(VerifyMethodPrompt(id), tip), Call(SendSmsCode), Ask(SmsCodePrompt(id), smsCode), Call(SubmitSmsCode(smsCode))]
      else
        [Ask(VerifyMethodPrompt(id), tip), Ask(DeviceQrScannedPrompt(id, url), answer(k + 1)), Call(ResumeLogin)]
  }

  /** A handler reads the next operator lines, in order: one, or two for a
      device challenge. */
  lemma HandleReadsInOrder(id: string, ev: Event, answer: nat -> string, k: nat)
    ensures ReadsInOrder(Handle(id, ev, answer, k), answer, k, PromptsFor(ev))
  {
    var t := Handle(id, ev, answer, k);
    match ev
    case SliderEvent(_) =>
      assert Replies(t[1..]) == [] by { assert t[1..][1..] == []; }
    case QrCodeEvent =>
      assert Replies(t[1..]) == [] by { assert t[1..][1..] == []; }
    case DeviceEvent(_) =>
      var second := answer(k + 1);
      if answer(k) == "1" {
        assert Replies(t[3..]) == [] by { assert t[3..][1..] == []; }
        assert Replies(t[2..]) == [second] by { assert t[2..][1..] == t[3..]; }
        assert Replies(t[1..]) == [second] by { assert t[1..][1..] == t[2..]; }
      } else {
        assert Replies(t[2..]) == [] by { assert t[2..][1..] == []; }
        assert Replies(t[1..]) == [second] by { assert t[1..][1..] == t[2..]; }
      }
      assert Replies(t) == [answer(k), second];
      assert Lines(answer, k, 2) == [answer(k), second];
  }

  /** The shape every handler keeps: its prompts name the account and come
      first, a value given to the client is the answer to the prompt just
      before it, it ends by letting the login go on exactly once, and a device
      challenge asks for the SMS code exactly when "1" was chosen. */
  lemma HandlerProtocol(id: string, ev: Event, answer: nat -> string, k: nat)
    ensures var t := Handle(id, ev, answer, k);
      && (forall i :: 0 <= i < |t| && t[i].Ask? ==> t[i].prompt.id == id)
      && |t| > 0 && t[0].Ask?
      && (forall i :: 0 < i < |t| && t[i].Call? && t[i].call.Carries() ==>
            t[i - 1].Ask? && t[i - 1].reply == t[i].call.Payload())
      && t[|t| - 1].Call? && t[|t| - 1].call.Resumes()
      && (forall i :: 0 <= i < |t| - 1 ==> !(t[i].Call? && t[i].call.Resumes()))
      && (forall i :: 0 <= i < |t| ==> !t[i].LogLoginFailure?)
      && (Call(SendSmsCode) in t ==> ev.DeviceEvent? && answer(k) == "1")
    ensures var t := Handle(id, ev, answer, k);
      ev.DeviceEvent? ==>
        && t[0] == Ask(VerifyMethodPrompt(id), answer(k))
        && (Call(SendSmsCode) in t <==> answer(k) == "1")
        && (Ask(SmsCodePrompt(id), answer(k + 1)) in t <==> answer(k) == "1")
    // which prompt each handler shows and which call resumes the login
    ensures var t := Handle(id, ev, answer, k);
      && (ev.SliderEvent? ==>
            t[0] == Ask(SliderTicketPrompt(id, ev.url), answer(k)) && t[|t| - 1] == Call(SubmitSlider(answer(k))))
      && (ev.QrCodeEvent? ==>
            t[0] == Ask(QrCodeScannedPrompt(id), answer(k)) && t[|t| - 1] == Call(ResumeLogin))
      && (ev.DeviceEvent? && answer(k) == "1" ==>
            t[2] == Ask(SmsCodePrompt(id), answer(k + 1)) && t[|t| - 1] == Call(SubmitSmsCode(answer(k + 1))))
      && (ev.DeviceEvent? && answer(k) != "1" ==>
            t[1] == Ask(DeviceQrScannedPrompt(id, ev.url), answer(k + 1)) && t[|t| - 1] == Call(ResumeLogin))
  {
  }

  /** The number of operator lines the handler of `ev` reads. */
  function PromptsFor(ev: Event): nat {
    if ev.DeviceEvent? then 2 else 1
  }

  /** The number of operator lines the handlers of `events` read. */
  function LinesRead(events: seq<Event>): nat {
    if events == [] then 0 else PromptsFor(events[0]) + LinesRead(events[1..])
  }

  /** The handlers run for the challenges of one login, one after another,
      from operator line `k` on. */
  function EventSteps(id: string, events: seq<Event>, k: nat): seq<Step> {
    if events == [] then []
    else [RunHandler(id, events[0], k)] + EventSteps(id, events[1..], k + PromptsFor(events[0]))
  }

  /** One handler run per challenge, in the order the challenges arrive, all
      for that account, the first from line `k`. */
  lemma {:induction false} EventStepsShape(id: string, events: seq<Event>, k: nat)
    ensures |EventSteps(id, events, k)| == |events|
    ensures forall j :: 0 <= j < |events| ==>
              EventSteps(id, events, k)[j].RunHandler? && EventSteps(id, events, k)[j].id == id
              && EventSteps(id, events, k)[j].ev == events[j]
    ensures events != [] ==> EventSteps(id, events, k)[0].line == k
  {
    if events != [] {
      EventStepsShape(id, events[1..], k + PromptsFor(events[0]));
    }
  }

  /** One account's part of a login run: its challenges, then the error log
      when the login promise rejects. */
  function AccountSteps(account: Account, attempt: Attempt, k: nat): (r: seq<Step>)
    ensures |r| == |attempt.events| + (if attempt.accepted then 0 else 1)
    ensures forall j :: 0 <= j < |r| ==> r[j].id == account.id
    ensures forall j :: 0 <= j < |attempt.events| ==> r[j].RunHandler? && r[j].ev == attempt.events[j]
    ensures !attempt.accepted ==> r[|r| - 1] == LoginFailed(account.id)
  {
    EventStepsShape(account.id, attempt.events, k);
    EventSteps(account.id, attempt.events, k)
      + (if attempt.accepted then [] else [LoginFailed(account.id)])
  }

  /** The number of operator lines the logins of the first `i` accounts read. */
  function LinesBefore(attempts: seq<Attempt>, i: nat): nat
    requires i <= |attempts|
  {
    if i == 0 then 0 else LinesBefore(attempts, i - 1) + LinesRead(attempts[i - 1].events)
  }

  /** The number of challenges the first `i` logins raise. */
  function ChallengeCount(attempts: seq<Attempt>, i: nat): nat
    requires i <= |attempts|
  {
    if i == 0 then 0 else ChallengeCount(attempts, i - 1) + |attempts[i - 1].events|
  }

  /** The login run over the first `i` accounts, from operator line 0 on. */
  function LoginSteps(accounts: seq<Account>, attempts: seq<Attempt>, i: nat): (r: seq<Step>)
    requires |attempts| == |accounts| && i <= |accounts|
    ensures |r| == ChallengeCount(attempts, i) + |RejectedIds(accounts, attempts, i)|
  {
    if i == 0 then []
    else LoginSteps(accounts, attempts, i - 1) + AccountSteps(accounts[i - 1], attempts[i - 1], LinesBefore(attempts, i - 1))
  }

  /** What the steps of a schedule do, given the lines the operator types. */
  function Expand(steps: seq<Step>, answer: nat -> string): seq<Io> {
    if steps == [] then []
    else
      (match steps[0]
       case RunHandler(id, ev, line) => Handle(id, ev, answer, line)
       case LoginFailed(id) => [LogLoginFailure(id)])
      + Expand(steps[1..], answer)
  }

  /** A trace reads `n` operator lines, in order, from line `k` on. */
  predicate ReadsInOrder(t: seq<Io>, answer: nat -> string, k: nat, n: nat) {
    Replies(t) == Lines(answer, k, n)
  }

  /** The handlers of a schedule read `n` lines from line `k` on, each
      starting where the one before it stopped. */
  predicate Consecutive(steps: seq<Step>, k: nat, n: nat) {
    if steps == [] then n == 0
    else match steps[0]
      case RunHandler(_, ev, line) =>
        line == k && PromptsFor(ev) <= n && Consecutive(steps[1..], k + PromptsFor(ev), n - PromptsFor(ev))
      case LoginFailed(_) => Consecutive(steps[1..], k, n)
  }

  lemma {:induction false} ConsecutiveAppend(a: seq<Step>, b: seq<Step>, k: nat, n: nat, m: nat)
    requires Consecutive(a, k, n) && Consecutive(b, k + n, m)
    ensures Consecutive(a + b, k, n + m)
  {
    if a == [] {
      assert a + b == b;
    } else {
      assert (a + b)[1..] == a[1..] + b;
      match a[0]
      case RunHandler(_, ev, _) =>
        ConsecutiveAppend(a[1..], b, k + PromptsFor(ev), n - PromptsFor(ev), m);
      case LoginFailed(_) =>
        ConsecutiveAppend(a[1..], b, k, n, m);
    }
  }

  lemma ConsecutiveJoin(a: seq<Step>, b: seq<Step>, ab: seq<Step>, k: nat, n: nat, m: nat, nm: nat)
    requires ab == a + b && nm == n + m
    requires Consecutive(a, k, n) && Consecutive(b, k + n, m)
    ensures Consecutive(ab, k, nm)
  {
    ConsecutiveAppend(a, b, k, n, m);
  }

  /** A handler followed by a trace that reads on from where it stopped. */
  lemma HandlerThenRest(id: string, ev: Event, rest: seq<Io>, answer: nat -> string, k: nat, m: nat)
    requires ReadsInOrder(rest, answer, k + PromptsFor(ev), m)
    ensures ReadsInOrder(Handle(id, ev, answer, k) + rest, answer, k, PromptsFor(ev) + m)
  {
    HandleReadsInOrder(id, ev, answer, k);
    RepliesAppend(Handle(id, ev, answer, k), rest);
    LinesSplit(answer, k, PromptsFor(ev), m);
  }

  /** A schedule whose handlers are consecutive reads the operator's lines in
      order when it runs. */
  lemma {:induction false} ConsecutiveReadsInOrder(steps: seq<Step>, answer: nat -> string, k: nat, n: nat)
    requires Consecutive(steps, k, n)
    ensures ReadsInOrder(Expand(steps, answer), answer, k, n)
  {
    if steps != [] {
      var rest := Expand(steps[1..], answer);
      match steps[0]
      case RunHandler(id, ev, line) =>
        var p := PromptsFor(ev);
        ConsecutiveReadsInOrder(steps[1..], answer, k + p, n - p);
        HandlerThenRest(id, ev, rest, answer, k, n - p);
      case LoginFailed(id) =>
        ConsecutiveReadsInOrder(steps[1..], answer, k, n);
        RepliesAppend([LogLoginFailure(id)], rest);
    }
  }

  lemma {:induction false} EventStepsConsecutive(id: string, events: seq<Event>, k: nat)
    ensures Consecutive(EventSteps(id, events, k), k, LinesRead(events))
  {
    if events != [] {
      var steps := EventSteps(id, events, k);
      assert steps[1..] == EventSteps(id, events[1..], k + PromptsFor(events[0]));
      EventStepsConsecutive(id, events[1..], k + PromptsFor(events[0]));
    }
  }

  lemma AccountStepsConsecutive(account: Account, attempt: Attempt, k: nat)
    ensures Consecutive(AccountSteps(account, attempt, k), k, LinesRead(attempt.events))
  {
    var log: seq<Step> := if attempt.accepted then [] else [LoginFailed(account.id)];
    EventStepsConsecutive(account.id, attempt.events, k);
    assert Consecutive(log, k + LinesRead(attempt.events), 0) by {
      if !attempt.accepted {
        assert log[1..] == [];
      }
    }
    ConsecutiveAppend(EventSteps(account.id, attempt.events, k), log, k, LinesRead(attempt.events), 0);
  }

  /** The handlers of the first `i` logins are consecutive from line 0 on. */
  lemma {:induction false} LoginStepsConsecutive(accounts: seq<Account>, attempts: seq<Attempt>, i: nat)
    requires |attempts| == |accounts| && i <= |accounts|
    ensures Consecutive(LoginSteps(accounts, attempts, i), 0, LinesBefore(attempts, i))
  {
    if i > 0 {
      LoginStepsConsecutive(accounts, attempts, i - 1);
      LoginStepsConsecutiveStep(accounts, attempts, i);
    }
  }

  lemma LoginStepsConsecutiveStep(accounts: seq<Account>, attempts: seq<Attempt>, i: nat)
    requires |attempts| == |accounts| && 0 < i <= |accounts|
    requires Consecutive(LoginSteps(accounts, attempts, i - 1), 0, LinesBefore(attempts, i - 1))
    ensures Consecutive(LoginSteps(accounts, attempts, i), 0, LinesBefore(attempts, i))
  {
    var k := LinesBefore(attempts, i - 1);
    LoginStepsLast(accounts, attempts, i);
    AccountStepsConsecutive(accounts[i - 1], attempts[i - 1], k);
    ConsecutiveJoin(LoginSteps(accounts, attempts, i - 1), AccountSteps(accounts[i - 1], attempts[i - 1], k),
                    LoginSteps(accounts, attempts, i), 0, k, LinesRead(attempts[i - 1].events), LinesBefore(attempts, i));
  }

  /** How the run over the first `i` accounts ends: the run over the accounts
      before, then the last account's part. */
  lemma LoginStepsLast(accounts: seq<Account>, attempts: seq<Attempt>, i: nat)
    requires |attempts| == |accounts| && 0 < i <= |accounts|
    ensures LoginSteps(accounts, attempts, i)
         == LoginSteps(accounts, attempts, i - 1) + AccountSteps(accounts[i - 1], attempts[i - 1], LinesBefore(attempts, i - 1))
    ensures LinesBefore(attempts, i) == LinesBefore(attempts, i - 1) + LinesRead(attempts[i - 1].events)
  {
  }

  /** The prompts of a login run share one operator: the run reads exactly
      one line per slider or QR-code challenge and two per device challenge,
      each typed line once, in the order it was typed, across all accounts. */
  lemma LoginReadsInOrder(accounts: seq<Account>, attempts: seq<Attempt>, answer: nat -> string)
    requires |attempts| == |accounts|
    ensures ReadsInOrder(Expand(LoginSteps(accounts, attempts, |accounts|), answer), answer, 0, LinesBefore(attempts, |accounts|))
  {
    LoginStepsConsecutive(accounts, attempts, |accounts|);
    ConsecutiveReadsInOrder(LoginSteps(accounts, attempts, |accounts|), answer, 0, LinesBefore(attempts, |accounts|));
  }

  /** What one account adds to the failure log: its id when its login
      promise rejects, nothing otherwise. */
  lemma AccountStepsLog(account: Account, attempt: Attempt, k: nat)
    ensures Failures(AccountSteps(account, attempt, k)) == if attempt.accepted then [] else [account.id]
  {
    var log: seq<Step> := if attempt.accepted then [] else [LoginFailed(account.id)];
    FailuresAppend(EventSteps(account.id, attempt.events, k), log);
    EventStepsLogNothing(account.id, attempt.events, k);
    assert Failures(log) == if attempt.accepted then [] else [account.id];
  }

  /** The ids of the failure logs in a trace, in order. */
  function LoggedIds(t: seq<Io>): seq<string> {
    if t == [] then []
    else (if t[0].LogLoginFailure? then [t[0].id] else []) + LoggedIds(t[1..])
  }

  lemma {:induction false} LoggedIdsAppend(a: seq<Io>, b: seq<Io>)
    ensures LoggedIds(a + b) == LoggedIds(a) + LoggedIds(b)
  {
    if a != [] {
      assert (a + b)[1..] == a[1..] + b;
      LoggedIdsAppend(a[1..], b);
    } else {
      assert a + b == b;
    }
  }

  lemma {:induction false} LoggedIdsOfNoLog(t: seq<Io>)
    requires forall i :: 0 <= i < |t| ==> !t[i].LogLoginFailure?
    ensures LoggedIds(t) == []
  {
    if t != [] {
      LoggedIdsOfNoLog(t[1..]);
    }
  }

  /** The effects of a schedule log exactly the failures the schedule holds:
      the handlers themselves log nothing. */
  lemma {:induction false} ExpandLogsFailures(steps: seq<Step>, answer: nat -> string)
    ensures LoggedIds(Expand(steps, answer)) == Failures(steps)
  {
    if steps != [] {
      ExpandLogsFailures(steps[1..], answer);
      var head := match steps[0]
        case RunHandler(id, ev, line) => Handle(id, ev, answer, line)
        case LoginFailed(id) => [LogLoginFailure(id)];
      assert Expand(steps, answer) == head + Expand(steps[1..], answer);
      LoggedIdsAppend(head, Expand(steps[1..], answer));
      match steps[0]
      case RunHandler(id, ev, line) =>
        HandlerProtocol(id, ev, answer, line);
        LoggedIdsOfNoLog(head);
      case LoginFailed(id) =>
        assert LoggedIds(head) == [id] by { assert head[1..] == []; }
    }
  }

  /** What a whole login run does logs a failure for exactly the rejected
      logins, once each, in account order. */
  lemma LoginEffectsLogRejected(accounts: seq<Account>, attempts: seq<Attempt>, answer: nat -> string)
    requires |attempts| == |accounts|
    ensures LoggedIds(Expand(LoginSteps(accounts, attempts, |accounts|), answer)) == RejectedIds(accounts, attempts, |accounts|)
  {
    ExpandLogsFailures(LoginSteps(accounts, attempts, |accounts|), answer);
    LoginLogsRejected(accounts, attempts, |accounts|);
  }

  /** Only rejected logins are logged, each once, in account order. */
  lemma {:induction false} LoginLogsRejected(accounts: seq<Account>, attempts: seq<Attempt>, i: nat)
    requires |attempts| == |accounts| && i <= |accounts|
    ensures Failures(LoginSteps(accounts, attempts, i)) == RejectedIds(accounts, attempts, i)
  {
    if i > 0 {
      LoginLogsRejected(accounts, attempts, i - 1);
      LoginLogsRejectedStep(accounts, attempts, i);
    }
  }

  /** The failure log of one more account extends that of the accounts before. */
  lemma LoginLogsRejectedStep(accounts: seq<Account>, attempts: seq<Attempt>, i: nat)
    requires |attempts| == |accounts| && 0 < i <= |accounts|
    requires Failures(LoginSteps(accounts, attempts, i - 1)) == RejectedIds(accounts, attempts, i - 1)
    ensures Failures(LoginSteps(accounts, attempts, i)) == RejectedIds(accounts, attempts, i)
  {
    var k := LinesBefore(attempts, i - 1);
    LoginStepsLast(accounts, attempts, i);
    AccountStepsLog(accounts[i - 1], attempts[i - 1], k);
    FailuresOfJoin(LoginSteps(accounts, attempts, i - 1), AccountSteps(accounts[i - 1], attempts[i - 1], k),
                   LoginSteps(accounts, attempts, i), RejectedIds(accounts, attempts, i - 1),
                   if attempts[i - 1].accepted then [] else [accounts[i - 1].id], RejectedIds(accounts, attempts, i));
  }


  /** The accounts logged as failed in a schedule, in order. */
  function Failures(steps: seq<Step>): seq<string> {
    if steps == [] then []
    else (if steps[0].LoginFailed? then [steps[0].id] else []) + Failures(steps[1..])
  }

  /** The ids of the first `i` accounts whose login promise rejects, in order. */
  function RejectedIds(accounts: seq<Account>, attempts: seq<Attempt>, i: nat): seq<string>
    requires |attempts| == |accounts| && i <= |accounts|
  {
    if i == 0 then []
    else RejectedIds(accounts, attempts, i - 1) + (if attempts[i - 1].accepted then [] else [accounts[i - 1].id])
  }

  lemma FailuresOfJoin(a: seq<Step>, b: seq<Step>, ab: seq<Step>, fa: seq<string>, fb: seq<string>, fab: seq<string>)
    requires ab == a + b && fab == fa + fb && Failures(a) == fa && Failures(b) == fb
    ensures Failures(ab) == fab
  {
    FailuresAppend(a, b);
  }

  lemma {:induction false} FailuresAppend(a: seq<Step>, b: seq<Step>)
    ensures Failures(a + b) == Failures(a) + Failures(b)
  {
    if a != [] {
      assert (a + b)[1..] == a[1..] + b;
      FailuresAppend(a[1..], b);
    } else {
      assert a + b == b;
    }
  }

  lemma {:induction false} EventStepsLogNothing(id: string, events: seq<Event>, k: nat)
    ensures Failures(EventSteps(id, events, k)) == []
  {
    if events != [] {
      var steps := EventSteps(id, events, k);
      assert steps[1..] == EventSteps(id, events[1..], k + PromptsFor(events[0]));
      EventStepsLogNothing(id, events[1..], k + PromptsFor(events[0]));
    }
  }

  /** The bots `login` returns for the first `i` accounts: one per account,
      in order, with its nickname and a client whose uin is parsed from its
      id, online as the client was once its login settled. */
  function LoggedInBots(accounts: seq<Account>, attempts: seq<Attempt>, i: nat): (r: seq<Entry>)
    requires |attempts| == |accounts| && i <= |accounts|
    ensures |r| == i
    ensures forall j :: 0 <= j < i ==>
              && r[j].nickName == accounts[j].nickName
              && r[j].client == Client(ParseUin(accounts[j].id), attempts[j].online)
  {
    if i == 0 then []
    else LoggedInBots(accounts, attempts, i - 1) + [Entry(accounts[i - 1].nickName, Client(ParseUin(accounts[i - 1].id), attempts[i - 1].online))]
  }

  /** One more account in the loop of `login`: its handler steps and its
      log extend the run, and its entry extends the bots. */
  lemma LoginNext(accounts: seq<Account>, attempts: seq<Attempt>, i: nat, handlerSteps: seq<Step>, logSteps: seq<Step>)
    requires |attempts| == |accounts| && i < |accounts|
    requires handlerSteps == EventSteps(accounts[i].id, attempts[i].events, LinesBefore(attempts, i))
    requires logSteps == if attempts[i].accepted then [] else [LoginFailed(accounts[i].id)]
    ensures LoginSteps(accounts, attempts, i + 1) == LoginSteps(accounts, attempts, i) + (handlerSteps + logSteps)
    ensures LinesBefore(attempts, i + 1) == LinesBefore(attempts, i) + LinesRead(attempts[i].events)
    ensures LoggedInBots(accounts, attempts, i + 1)
         == LoggedInBots(accounts, attempts, i) + [Entry(accounts[i].nickName, Client(ParseUin(accounts[i].id), attempts[i].online))]
  {
  }

  /** `login`, with the settings looked up for the `--server` option read as
      an optional string: fails when no settings row is found, otherwise
      returns one entry per account, in account order, whether or not its
      login was accepted; a rejected login only leaves an error in the log.
      The second result is the schedule of handlers and failure logs of the
      run. */
  method Login(server: Option<string>, table: map<Option<string>, BotConfig>, accounts: seq<Account>, attempts: seq<Attempt>)
    returns (r: Result<seq<Entry>>, steps: seq<Step>)
    requires |attempts| == |accounts|
    ensures FindBotConfig(server, table).None? ==> r == Err(BotConfigMissing) && steps == []
    ensures FindBotConfig(server, table).Some? ==> r == Ok(LoggedInBots(accounts, attempts, |accounts|))
    ensures FindBotConfig(server, table).Some? ==> steps == LoginSteps(accounts, attempts, |accounts|)
  {
    var config := LoginSettings(server, table);
    if config.Err? {
      return Err(config.error), [];
    }
    var onlineBots: seq<Entry> := [];
    steps := [];
    var k: nat := 0;
    for i := 0 to |accounts|
      invariant onlineBots == LoggedInBots(accounts, attempts, i)
      invariant steps == LoginSteps(accounts, attempts, i) && k == LinesBefore(attempts, i)
    {
      var account := accounts[i];
      // the challenge handlers fire while client.login is pending
      var handlerSteps := EventSteps(account.id, attempts[i].events, k);
      // a rejected login is only logged
      var logSteps: seq<Step> := [];
      if !attempts[i].accepted {
        logSteps := [LoginFailed(account.id)];
      }
      LoginNext(accounts, attempts, i, handlerSteps, logSteps);
      steps := steps + (handlerSteps + logSteps);
      k := k + LinesRead(attempts[i].events);
      onlineBots := onlineBots + [Entry(account.nickName, Client(ParseUin(account.id), attempts[i].online))];
    }
    r := Ok(onlineBots);
  }

  /** An entry made for an account whose id is a canonical decimal number,
      small enough for a double to hold exactly, is what `getBotByUin` with
      that id matches. */
  lemma LoggedInAccountMatchesItsId(account: Account, online: bool, n: nat)
    requires account.id == NatToString(n) && n <= MaxSafeInteger
    ensures Matches(Entry(account.nickName, Client(ParseUin(account.id), online)), ByUin(account.id))
  {
    UinOfCanonicalId(n);
  }
}

=== FILE: bot_registry.dfy ===
/** The process-wide `bot` object of common/tools/bot.ts: the `bots` array
    that `setBot` extends in place and `removeOfflineBots` replaces. Its read
    operations are the functions of BotEntries applied to `bots`. */
module BotRegistry {
  import opened Outcomes
  import opened BotEntries
  import opened BotLogin

  class Registry {
    var bots: seq<Entry>

    /** `bots: []` at start-up. */
    constructor ()
      ensures bots == []
    {
      bots := [];
    }

    /** `setBot`: loads the accounts, logs them all in, then pushes every
        logged-in bot that no online bot already matches by uin or nickname.
        Each duplicate check reads the online bots afresh, so it sees the
        bots pushed before it, and throws while the array is still empty. */
    method SetBot(found: Option<seq<Account>>, server: Option<string>, table: map<Option<string>, BotConfig>,
                  attempts: seq<Attempt>)
      returns (r: Outcome, steps: seq<Step>)
      requires found.Some? ==> |attempts| == |found.value|
      modifies this
      ensures GetAllQQAccount(found).Err? ==> r == Fail(NoQQAccount) && steps == [] && bots == old(bots)
      ensures GetAllQQAccount(found).Ok? && FindBotConfig(server, table).None? ==>
                r == Fail(BotConfigMissing) && steps == [] && bots == old(bots)
      ensures GetAllQQAccount(found).Ok? && FindBotConfig(server, table).Some? ==>
                var accounts := found.value;
                var merged := Merge(old(bots), LoggedInBots(accounts, attempts, |accounts|));
                && steps == LoginSteps(accounts, attempts, |accounts|)
                && (merged.Ok? ==> r == Pass && bots == merged.value)
                && (merged.Err? ==> r == Fail(merged.error) && bots == old(bots))
    {
      var account := GetAllQQAccount(found);
      if account.Err? {
        return Fail(account.error), [];
      }
      var liveBots;
      liveBots, steps := Login(server, table, account.value, attempts);
      if liveBots.Err? {
        return Fail(liveBots.error), steps;
      }
      var live := liveBots.value;
      for i := 0 to |live|
        invariant old(bots) <= bots
        invariant Merge(old(bots), live) == Merge(bots, live[i..])
      {
        assert live[i..][0] == live[i] && live[i..][1..] == live[i + 1..];
        var online := OnlineBots(bots);
        if online.Err? {
          return Fail(online.error), steps;
        }
        if |Clashing(online.value, live[i])| > 0 {
          continue;
        }
        bots := bots + [live[i]];
      }
      assert live[|live|..] == [];
      r := Pass;
    }

    /** `removeOfflineBots`: keeps only the online bots; throws on an empty
        array, leaving it as it was. */
    method RemoveOfflineBots() returns (r: Outcome)
      modifies this
      ensures old(bots) == [] ==> r == Fail(NotInitialized) && bots == old(bots)
      ensures old(bots) != [] ==> r == Pass && bots == OnlineOf(old(bots))
    {
      var online := OnlineBots(bots);
      if online.Err? {
        return Fail(online.error);
      }
      bots := online.value;
      r := Pass;
    }
  }

  /** After `removeOfflineBots` every bot is online, and a second call leaves
      the array as it is; that call throws exactly when no bot was online. */
  lemma PruneIsIdempotent(bots: seq<Entry>)
    ensures forall e :: e in OnlineOf(bots) ==> IsOnline(e)
    ensures OnlineOf(OnlineOf(bots)) == OnlineOf(bots)
    ensures OnlineOf(bots) == [] <==> forall e :: e in bots ==> !IsOnline(e)
  {
    OnlineOfAllOnline(OnlineOf(bots));
    if OnlineOf(bots) != [] {
      assert OnlineOf(bots)[0] in OnlineOf(bots);
    }
  }

  /** A registry that starts empty stays empty through any `setBot`: the
      first duplicate check throws before anything is pushed. */
  lemma EmptyRegistryStaysEmpty(liveBots: seq<Entry>)
    ensures Merge([], liveBots).Ok? ==> Merge([], liveBots).value == []
    ensures liveBots != [] ==> Merge([], liveBots) == Err(NotInitialized)
  {
  }
}

=== FILE: numerals.dfy ===
/** Decimal numerals: `Number.prototype.toString()` on non-negative integers
    and the digit-prefix part of `parseFloat`. */
module Numerals {

  predicate IsDigit(c: char) { '0' <= c <= '9' }

  /** `Number.MAX_SAFE_INTEGER`: up to here a double holds every integer
      exactly, so parsing a decimal id and printing it back are exact. */
  const MaxSafeInteger: nat := 9007199254740991

  function DigitChar(d: nat): (c: char)
    requires d < 10
    ensures IsDigit(c)
  {
    ('0' as int + d) as char
  }

  function DigitValue(c: char): (d: nat)
    requires IsDigit(c)
    ensures d < 10
  {
    c as int - '0' as int
  }

  /** The decimal text of `n`, without leading zeros ("0" for zero), as
      `toString()` writes integers below 10^21. */
  function NatToString(n: nat): (s: string)
    ensures |s| > 0
    ensures forall i :: 0 <= i < |s| ==> IsDigit(s[i])
    ensures |s| > 1 ==> s[0] != '0'
  {
    if n < 10 then [DigitChar(n)] else NatToString(n / 10) + [DigitChar(n % 10)]
  }

  /** The value of a digit string read left to right. */
  function DigitsValue(ds: string): nat
    requires forall i :: 0 <= i < |ds| ==> IsDigit(ds[i])
  {
    if ds == [] then 0 else DigitsValue(ds[..|ds| - 1]) * 10 + DigitValue(ds[|ds| - 1])
  }

  /** The longest prefix of `s` made of decimal digits. */
  function LeadingDigits(s: string): (p: string)
    ensures p <= s
    ensures forall i :: 0 <= i < |p| ==> IsDigit(p[i])
    ensures |p| < |s| ==> !IsDigit(s[|p|])
  {
    if s == [] || !IsDigit(s[0]) then [] else [s[0]] + LeadingDigits(s[1..])
  }

  /** A string of digits is read whole; this follows from the maximality of
      `LeadingDigits`. */
  lemma LeadingDigitsOfDigits(s: string)
    requires forall i :: 0 <= i < |s| ==> IsDigit(s[i])
    ensures LeadingDigits(s) == s
  {
  }

  lemma {:induction false} DigitsValueOfNatToString(n: nat)
    ensures DigitsValue(NatToString(n)) == n
  {
    if n >= 10 {
      DigitsValueOfNatToString(n / 10);
      var s := NatToString(n);
      assert s[..|s| - 1] == NatToString(n / 10);
    }
  }

  /** Reading back the text `toString` produces gives the number again. */
  lemma NatToStringRoundTrip(n: nat)
    ensures LeadingDigits(NatToString(n)) == NatToString(n)
    ensures DigitsValue(LeadingDigits(NatToString(n))) == n
  {
    LeadingDigitsOfDigits(NatToString(n));
    DigitsValueOfNatToString(n);
  }

  /** Distinct numbers have distinct decimal texts. */
  lemma NatToStringInjective(m: nat, n: nat)
    requires NatToString(m) == NatToString(n)
    ensures m == n
  {
    DigitsValueOfNatToString(m);
    DigitsValueOfNatToString(n);
  }
}

=== FILE: outcomes.dfy ===
/** Result carriers shared by the bot and system modules: the errors the
    source throws become `Err` values instead of exceptions. */
module Outcomes {

  datatype Option<+T> = None | Some(value: T)

  /** The exceptions thrown by the modelled code, one case per message. */
  datatype Error =
    | NotInitialized                                  // the registry's array is still empty
    | NoOnlineBot                                     // `getBot` found no online bot
    | NoQQAccount                                     // the account store returned no account
    | BotConfigMissing                                // no bot settings row was found
    | MissingCmdArg(flag: string, typeName: string)   // a required option is not on the command line
    | NoArgParser(flag: string)                       // an option was asked for with no parser to read it

  datatype Result<+T> = Ok(value: T) | Err(error: Error)

  /** The result of a call that returns nothing but may throw. */
  datatype Outcome = Pass | Fail(error: Error)
}

=== FILE: system.dfy ===
/** The pure parts of common/tools/system.ts: splitting a directory entry's
    name at its first dot, picking a config file by name, laying the chosen
    server section over the config, and the missing-argument check of
    `getCmdArg`. The directory listing, the JSON import and the parsed
    command line are inputs. */
module System {
  import opened Outcomes
  import opened Numerals

  /** Splitting at a one-character separator: never empty, and no part
      holds the separator. */
  function Split(s: string, sep: char): (parts: seq<string>)
    ensures |parts| >= 1
    ensures forall i :: 0 <= i < |parts| ==> sep !in parts[i]
  {
    if s == [] then [""]
    else
      var rest := Split(s[1..], sep);
      if s[0] == sep then [""] + rest
      else [[s[0]] + rest[0]] + rest[1..]
  }

  /** Joining the parts with the separator between each two of them: the
      text starts with the first part, and the separator follows it when
      there is more than one part. */
  function Join(parts: seq<string>, sep: char): (r: string)
    ensures parts != [] ==> parts[0] <= r
    ensures |parts| > 1 ==> |parts[0]| < |r| && r[|parts[0]|] == sep
    ensures |parts| == 1 ==> r == parts[0]
  {
    if parts == [] then ""
    else if |parts| == 1 then parts[0]
    else parts[0] + [sep] + Join(parts[1..], sep)
  }

  /** Joining the parts of a split gives the string back. */
  lemma {:induction false} JoinSplit(s: string, sep: char)
    ensures Join(Split(s, sep), sep) == s
  {
    if s != [] {
      var rest := Split(s[1..], sep);
      JoinSplit(s[1..], sep);
      if s[0] == sep {
        assert Split(s, sep)[1..] == rest;
      } else {
        var parts := Split(s, sep);
        assert parts[1..] == rest[1..];
        if |rest| == 1 {
          assert Join(parts, sep) == [s[0]] + rest[0];
        } else {
          assert Join(rest, sep) == rest[0] + [sep] + Join(rest[1..], sep);
        }
      }
    }
  }

  /** A split has more than one part exactly when the separator occurs. */
  lemma {:induction false} SplitSinglePart(s: string, sep: char)
    ensures |Split(s, sep)| == 1 <==> sep !in s
  {
    if s != [] {
      SplitSinglePart(s[1..], sep);
      assert s == [s[0]] + s[1..];
    }
  }

  /** The `fileName` and `fileType` that `getFileDirents` adds to an entry. */
  datatype NameParts = NameParts(fileName: string, fileType: string)

  /** The name split at every dot, the first part as `fileName` and the
      rest joined back with dots as `fileType`: the name is cut at its first
      dot. */
  function SplitName(name: string): (r: NameParts)
    ensures '.' !in r.fileName
    ensures r.fileName <= name
    ensures '.' in name ==> r.fileName + "." + r.fileType == name
    ensures '.' !in name ==> r.fileName == name && r.fileType == ""
  {
    var parts := Split(name, '.');
    JoinSplit(name, '.');
    SplitSinglePart(name, '.');
    NameParts(parts[0], Join(parts[1..], '.'))
  }

  /** The cut is at the first dot: what follows `fileName` in the name is a
      dot, whenever anything follows. */
  lemma SplitNameCutsAtFirstDot(name: string)
    requires '.' in name
    ensures |SplitName(name).fileName| < |name|
    ensures name[|SplitName(name).fileName|] == '.'
  {
    var r := SplitName(name);
    assert name == r.fileName + "." + r.fileType;
  }

  /** A directory entry as `fs.readdir` gives it. */
  datatype Dirent = Dirent(name: string, path: string)

  /** An entry of `getFileDirents`: the directory entry with its name split. */
  datatype FileDirent = FileDirent(dirent: Dirent, fileName: string, fileType: string)

  /** `getFileDirents`: `None` when the listing failed. */
  function GetFileDirents(listing: Option<seq<Dirent>>): (r: Option<seq<FileDirent>>)
    ensures r.None? <==> listing.None?
    ensures r.Some? ==> |r.value| == |listing.value|
    ensures r.Some? ==> forall i :: 0 <= i < |r.value| ==>
              && r.value[i].dirent == listing.value[i]
              && r.value[i].fileName == SplitName(listing.value[i].name).fileName
              && r.value[i].fileType == SplitName(listing.value[i].name).fileType
  {
    match listing
    case None => None
    case Some(ds) =>
      Some(seq(|ds|, i requires 0 <= i < |ds| =>
        var parts := SplitName(ds[i].name);
        FileDirent(ds[i], parts.fileName, parts.fileType)))
  }

  /** The file names of the entries, in order. */
  function Names(ds: seq<FileDirent>): (r: seq<string>)
    ensures |r| == |ds|
    ensures forall i :: 0 <= i < |ds| ==> r[i] == ds[i].fileName
  {
    seq(|ds|, i requires 0 <= i < |ds| => ds[i].fileName)
  }

  /** Reference definition: the first position of `x` in `names`. */
  function IndexOf(names: seq<string>, x: string): (i: nat)
    requires x in names
    ensures i < |names| && names[i] == x
    ensures forall j :: 0 <= j < i ==> names[j] != x
  {
    if names[0] == x then 0 else 1 + IndexOf(names[1..], x)
  }

  /** The entries with that file name, in order. */
  function Named(ds: seq<FileDirent>, fileName: string): (r: seq<FileDirent>)
    ensures |r| <= |ds|
    ensures forall d :: d in r <==> d in ds && d.fileName == fileName
  {
    if ds == [] then []
    else (if ds[0].fileName == fileName then [ds[0]] else []) + Named(ds[1..], fileName)
  }

  /** The filter's first element is the first entry with that name. */
  lemma {:induction false} NamedHeadIsFirst(ds: seq<FileDirent>, fileName: string)
    requires fileName in Names(ds)
    ensures Named(ds, fileName) != []
    ensures Named(ds, fileName)[0] == ds[IndexOf(Names(ds), fileName)]
  {
    if ds[0].fileName != fileName {
      assert Names(ds)[1..] == Names(ds[1..]);
      NamedHeadIsFirst(ds[1..], fileName);
    }
  }

  /** The file choice of `getConfig`: nothing when the listing failed, is
      empty or has no entry with that `fileName`; otherwise the first such
      entry. */
  function SelectConfigFile(fileName: string, dirents: Option<seq<FileDirent>>): (r: Option<FileDirent>)
    ensures r.None? <==> dirents.None? || fileName !in Names(dirents.value)
    ensures r.Some? ==> r.value == dirents.value[IndexOf(Names(dirents.value), fileName)]
    ensures r.Some? ==> r.value.fileName == fileName
  {
    if dirents.None? || |dirents.value| == 0 || fileName !in Names(dirents.value) then None
    else
      var ds := dirents.value;
      NamedHeadIsFirst(ds, fileName);
      var chosen := Named(ds, fileName);
      if chosen == [] then None else Some(chosen[0])
  }

  /** A JSON value as `import(…, { assert: { type: "json" } })` yields it. */
  datatype Json =
    | JNull
    | JBool(b: bool)
    | JNumber(x: real)
    | JString(s: string)
    | JArray(items: seq<Json>)
    | JObject(fields: map<string, Json>)

  /** A sequence as an object keyed by its indices "0" … "n-1". */
  function Indexed<T>(xs: seq<T>): (m: map<string, T>)
    ensures forall i :: 0 <= i < |xs| ==> NatToString(i) in m && m[NatToString(i)] == xs[i]
    ensures |m| == |xs|
  {
    // distinct indices give distinct keys
    forall i, j | 0 <= i < |xs| && 0 <= j < |xs| && NatToString(i) == NatToString(j)
      ensures i == j
    {
      NatToStringInjective(i, j);
    }
    var m := map i | 0 <= i < |xs| :: NatToString(i) := xs[i];
    IndexKeysCount(|xs|);
    assert m.Keys == IndexKeys(|xs|);
    m
  }

  /** The index keys "0" … "n-1". */
  function IndexKeys(n: nat): set<string> {
    set i | 0 <= i < n :: NatToString(i)
  }

  lemma {:induction false} IndexKeysCount(n: nat)
    ensures |IndexKeys(n)| == n
  {
    if n > 0 {
      IndexKeysCount(n - 1);
      assert IndexKeys(n) == IndexKeys(n - 1) + {NatToString(n - 1)};
      forall i | 0 <= i < n - 1
        ensures NatToString(i) != NatToString(n - 1)
      {
        if NatToString(i) == NatToString(n - 1) {
          NatToStringInjective(i, n - 1);
        }
      }
    }
  }

  /** The own keys that spreading a value copies: an object's fields, an
      array's or a string's indices, nothing for null, booleans and
      numbers. */
  function SpreadOf(v: Json): (m: map<string, Json>)
    ensures v.JObject? ==> m == v.fields
    ensures v.JArray? ==> forall i :: 0 <= i < |v.items| ==> NatToString(i) in m && m[NatToString(i)] == v.items[i]
    ensures v.JArray? ==> |m| == |v.items|
    ensures v.JString? ==> forall i :: 0 <= i < |v.s| ==> NatToString(i) in m && m[NatToString(i)] == JString([v.s[i]])
    ensures v.JString? ==> |m| == |v.s|
    ensures v.JNull? || v.JBool? || v.JNumber? ==> m == map[]
  {
    match v
    case JObject(fields) => fields
    case JArray(items) => Indexed(items)
    case JString(s) => Indexed(seq(|s|, i requires 0 <= i < |s| => JString([s[i]])))
    case _ => map[]
  }

  /** The section `getConfig` lays over the config: `--server`, or "dev"
      when it is missing or empty. */
  function SectionName(server: Option<string>): (r: string)
    ensures server.None? || server.value == "" ==> r == "dev"
    ensures server.Some? && server.value != "" ==> r == server.value
  {
    if server.None? || server.value == "" then "dev" else server.value
  }

  /** The config with its section spread over it: the section's own keys
      replace or add to the config's, and a falsy or missing section adds
      nothing. */
  function Overlay(config: map<string, Json>, server: Option<string>): (r: map<string, Json>)
    // the section's own keys take its values; all other keys keep the config's
    ensures var key := SectionName(server);
      key in config ==>
        var spread := SpreadOf(config[key]);
        && r.Keys == config.Keys + spread.Keys
        && (forall k :: k in spread ==> r[k] == spread[k])
        && (forall k :: k in config && k !in spread ==> r[k] == config[k])
    // an absent section, or one whose spread is empty, changes nothing
    ensures var key := SectionName(server);
      (|| key !in config || config[key].JNull? || config[key].JBool? || config[key].JNumber?
       || config[key] == JString("") || config[key] == JArray([])) ==> r == config
    // the config's own keys are never dropped
    ensures config.Keys <= r.Keys
  {
    var key := SectionName(server);
    var section := if key in config then SpreadOf(config[key]) else map[];
    config + section
  }

  /** The result of `getConfig`: `undefined`, a rejected import of the
      chosen file, or the loaded config with the section laid over it. */
  datatype ConfigResult = Undefined | ImportFailed(path: string) | Loaded(config: map<string, Json>)

  /** The path the chosen file is imported from: its folder, a slash, then
      its name. */
  function PathOf(d: Dirent): (r: string)
    ensures |r| == |d.path| + 1 + |d.name|
    ensures r[..|d.path|] == d.path && r[|d.path|] == '/' && r[|d.path| + 1..] == d.name
  {
    d.path + "/" + d.name
  }

  /** `getConfig`: `files` holds the JSON of each file that can be imported,
      by path. */
  function GetConfig(fileName: string, listing: Option<seq<Dirent>>, files: map<string, map<string, Json>>,
                     server: Option<string>): (r: ConfigResult)
    ensures r.Undefined? <==> listing.None? || fileName !in Names(GetFileDirents(listing).value)
    ensures !r.Undefined? ==>
              var i := IndexOf(Names(GetFileDirents(listing).value), fileName);
              && SplitName(listing.value[i].name).fileName == fileName
              && (forall j :: 0 <= j < i ==> SplitName(listing.value[j].name).fileName != fileName)
              && (r.ImportFailed? <==> PathOf(listing.value[i]) !in files)
              && (r.ImportFailed? ==> r.path == PathOf(listing.value[i]))
              && (r.Loaded? ==> r.config == Overlay(files[PathOf(listing.value[i])], server))
  {
    var fileDirents := GetFileDirents(listing);
    match SelectConfigFile(fileName, fileDirents)
    case None => Undefined
    case Some(fileDirent) =>
      var path := PathOf(fileDirent.dirent);
      if path !in files then ImportFailed(path) else Loaded(Overlay(files[path], server))
  }

  /** The parser of each option that `getCmdArg` knows, by the name its
      error message prints; "--server" has none. */
  const ArgParsers: map<string, string> :=
    map["--dbHost" := "String", "--dbPort" := "Number", "--dbName" := "String",
        "--dbUser" := "String", "--dbPswd" := "String"]

  datatype ArgValue = StringArg(s: string) | NumberArg(x: real)

  /** `getCmdArg`: `parsed` is what the argument parser returns for a known
      option. A missing option throws, naming the option and its parser. An
      option with no parser throws whatever the command line holds: the
      argument parser refuses a spec entry that is not a parser, and were it
      to accept one, building the missing-option message would read the
      name of that absent parser. */
  function GetCmdArg(flag: string, parsed: map<string, ArgValue>): (r: Result<ArgValue>)
    ensures r.Ok? <==> flag in ArgParsers && flag in parsed
    ensures r.Ok? ==> r.value == parsed[flag]
    ensures flag in ArgParsers && flag !in parsed ==> r == Err(MissingCmdArg(flag, ArgParsers[flag]))
    ensures flag !in ArgParsers ==> r == Err(NoArgParser(flag))
  {
    if flag !in ArgParsers then Err(NoArgParser(flag))
    else if flag in parsed then Ok(parsed[flag])
    else Err(MissingCmdArg(flag, ArgParsers[flag]))
  }

  /** The `--server` option read with the string parser, as `getConfig`
      reads it: missing when the command line does not give it. */
  function ServerArg(parsed: map<string, ArgValue>): (r: Option<string>)
    ensures r.Some? <==> "--server" in parsed && parsed["--server"].StringArg?
    ensures r.Some? ==> r.value == parsed["--server"].s
  {
    if "--server" in parsed && parsed["--server"].StringArg? then Some(parsed["--server"].s) else None
  }
}
